=== FILE: README.md ===
# Countdown Timer — a Dafny model

This project models the logic of the React `Timer` component (`src/components/timer/index.jsx`),
a countdown of at most 59:59 with Start, Pause and Reset buttons and a ring that shows progress.
Under the JSX, the component has a small sequential core:

- the mount-time guard that refuses an `endTime` above 3599 seconds;
- the three pieces of state, `timeLeft`, `timeElapsed` and `isOn`, seeded from the props;
- `startTimer`, `pauseTimer` and `resetTimer`;
- the once-a-second tick. It fires only while `isOn && timeLeft > 0`, and then moves one second
  from `timeLeft` to `timeElapsed`;
- `timerEnded` and the class chosen for the progress ring;
- `formatTime`, which writes a number of seconds as `MM:SS`.

Files:

- `wrappers.dfy`: `Option` and `Result`.
- `time_format.dfy` (module `TimeFormat`): `formatTime` built from models of JavaScript's
  `String(n)`, `padStart`, `Math.floor` and the truncating `%`. It also has a reader `ParseClock`
  and round-trip lemmas in both directions. `ParseClock` has no counterpart in the component; it
  exists only to state that round trip.
- `countdown.dfy` (module `Countdown`): the `Timer` datatype, the mount guard, the actions, the
  guarded tick and the ring class.
- `countdown_runs.dfy` (module `CountdownRuns`): repeated ticks, arbitrary sequences of clicks and
  ticks, and the invariants they keep.

The effect that drives the tick depends on `[isOn, timeLeft]`. Every change of `timeLeft` therefore
tears the interval down and re-arms it, so the guard is re-read before each firing. The model
treats one firing as a single atomic guarded step (`Countdown.Tick`), with no notion of time.

The model follows the code in these respects:

- Only the upper bound on `endTime` is checked. A zero or negative `endTime` mounts without error.
  So the range invariant (`0 <= timeLeft <= endTime`) is proved only for `endTime >= 0`. The
  conservation invariant (`timeLeft + timeElapsed == endTime`) holds unconditionally.
- `elapsedTime` is not validated. If it exceeds `endTime`, `timeLeft` starts negative. Until the
  next Reset, the tick never fires and the timer never ends; after a Reset it counts down normally.
  While negative, `formatTime` shows JavaScript's signs, e.g. `-1:-5` for -5 seconds.
- When the countdown reaches zero, `isOn` stays `true`. Ticks stop only because the guard fails,
  not because the timer is switched off.

## Model

| member | source | states |
|---|---|---|
| Countdown.Create | src/components/timer/index.jsx:6-48 | `elapsedTime` defaults to 0. Mounting fails, with the too-long error, exactly when `endTime > 3599`. There is no lower-bound check. On success the timer keeps the props, is off and disarmed, has `timeElapsed == elapsedTime`, and satisfies `timeLeft + timeElapsed == endTime`. It is fully valid when `0 <= elapsedTime <= endTime`. |
| Countdown.Start | src/components/timer/index.jsx:63 | Start turns `isOn` on and changes nothing else. The tick is then armed exactly when time is left. |
| Countdown.Pause | src/components/timer/index.jsx:68 | Pause turns `isOn` off, which disarms the tick, and changes nothing else. |
| Countdown.Reset | src/components/timer/index.jsx:74-78 | Reset gives a stopped timer with nothing elapsed that satisfies conservation. It is ended only when `endTime == 0`, and it is valid whenever `endTime >= 0`. |
| Countdown.Max | src/components/timer/index.jsx:100 | `Math.max(a, b)` is one of its arguments and at least as large as both. |
| Countdown.Tick | src/components/timer/index.jsx:94-102 | A tick changes the state if and only if `isOn && timeLeft > 0`. When it fires, one second moves from remaining to elapsed, so the `max(…, 0)` clamp is never needed. It preserves conservation, range and `timeLeft >= 0`. An ended timer is left as it is. |
| Countdown.Ended | src/components/timer/index.jsx:53 | On a conserved timer, `timerEnded` holds exactly when the whole duration has elapsed. |
| Countdown.TickArmed | src/components/timer/index.jsx:96 | The effect arms the interval only while the timer is on and not ended. A running timer with no negative time left is armed exactly until it ends. |
| Countdown.RingOf | src/components/timer/index.jsx:121 | The ring is `end-animation` exactly when `timerEnded` holds. It is `hidden` exactly when the timer has not ended and nothing has elapsed. Otherwise it is `progressCircle`. |
| Countdown.ClassName | src/components/timer/index.jsx:121 | Each of the three ring choices gets its own class text: `end-animation`, `hidden` or `progressCircle`. |
| TimeFormat.NatDigits | src/components/timer/index.jsx:28-29 | `String(n)` for `n >= 0` gives decimal digits with no leading zero that read back as `n`. The text is one character long exactly below 10, and at most two exactly below 100. |
| TimeFormat.JsString | src/components/timer/index.jsx:28-29 | `String(n)` reads back as `n` and has no leading zero (except `0` itself). A negative `n` gets a leading `-` before the digits of `-n`, again without a leading zero. |
| TimeFormat.PadStart | src/components/timer/index.jsx:28-29 | `padStart(width, fill)` leaves a text that is already wide enough unchanged. Otherwise it has exactly `width` characters, ends with the original text, and is filled with `fill` before it. |
| TimeFormat.FloorDiv | src/components/timer/index.jsx:28 | `Math.floor(t / d)` is the largest `q` with `q * d <= t`. |
| TimeFormat.TruncRem | src/components/timer/index.jsx:29 | JavaScript's `t % d` differs from `t` by a multiple of `d`. It lies in `0..d-1` for `t >= 0` and in `-(d-1)..0` for `t < 0`, which fixes it uniquely. |
| TimeFormat.Field | src/components/timer/index.jsx:28-29 | `String(n).padStart(2, '0')` is at least two characters. For `n >= 0` it is all digits and reads back as `n`. For `0 <= n < 100` it is exactly two characters, and at 100 or more it is longer, with no leading zero. For negative `n` it is `-` followed by the digits of `-n` with no leading zero. So outside `0..99` it is exactly `String(n)`. |
| TimeFormat.FormatTime | src/components/timer/index.jsx:25-32 | For `0 <= t < 6000` the text is two digits, a colon and two digits. The second field is below 60, and `minutes*60 + seconds == t`. For `t <= 3599` the minutes are also below 60. |
| TimeFormat.FormatThenParse | src/components/timer/index.jsx:25-32 | Reading back `formatTime(t)` gives `t`, for every `0 <= t < 6000`. |
| TimeFormat.ParseThenFormat | src/components/timer/index.jsx:25-32 | Every `MM:SS` text with `SS < 60` is exactly `formatTime` of the seconds it denotes. |
| TimeFormat.KnownReadouts | src/components/timer/index.jsx:25-32 | 0, 10, 65 and 3599 seconds read `00:00`, `00:10`, `01:05` and `59:59`. |
| TimeFormat.OutOfRangeReadouts | src/components/timer/index.jsx:25-32 | -5, -65 and 6000 seconds read `-1:-5`, `-2:-5` and `100:00`. |
| CountdownRuns.Ticks | src/components/timer/index.jsx:94-106 | Repeated ticks keep the props and `isOn`, preserve conservation, and never increase `timeLeft`. |
| CountdownRuns.FiredCount | src/components/timer/index.jsx:96-101 | Of `n` interval firings, at most `n` change the state. After them, `timeElapsed` has grown and `timeLeft` has shrunk by exactly the number that did. |
| CountdownRuns.TicksCountDown | src/components/timer/index.jsx:96-101 | While running with `k <= timeLeft`, each of the first `k` ticks fires and moves exactly one second. |
| CountdownRuns.DisarmedIsAbsorbing | src/components/timer/index.jsx:96 | Once the guard is false, any number of ticks changes nothing and none fires. |
| CountdownRuns.CountdownRunsOut | src/components/timer/index.jsx:53-106 | A running timer with `L >= 0` seconds left fires exactly `min(n, L)` of `n` ticks. After `L` ticks it has `timeLeft == 0`, `L` more seconds elapsed, `timerEnded` true and the end ring, and stays there. |
| CountdownRuns.PausedStaysPut | src/components/timer/index.jsx:68-106 | No number of ticks moves a paused timer. |
| CountdownRuns.OverlongElapsedNeverEnds | src/components/timer/index.jsx:42-53 | An `elapsedTime` above `endTime` is accepted and starts with negative `timeLeft`. Started, such a timer never ticks and never ends. |
| CountdownRuns.ResetRecoversOverlong | src/components/timer/index.jsx:42-101 | A timer mounted with `elapsedTime > endTime` starts with negative `timeLeft`. After a reset and a start, `endTime` ticks bring it to zero and end it. |
| CountdownRuns.StartedFromMount | src/components/timer/index.jsx:42-101 | Mounted with nothing elapsed and started, `n <= endTime` ticks leave `endTime - n` remaining and `n` elapsed. |
| CountdownRuns.BreakScenario | src/components/timer/index.jsx:25-137 | A 10-second timer, started and ticked ten times, has ended and reads `00:10` elapsed and `00:00` left. |
| CountdownRuns.HourIsRefused | src/components/timer/index.jsx:16-18 | A 3600-second countdown is refused with the too-long error. |
| CountdownRuns.StartPauseIdempotent | src/components/timer/index.jsx:63-68 | Start and Pause are idempotent, and each undoes the other's effect on `isOn`. |
| CountdownRuns.ResetIsFreshMount | src/components/timer/index.jsx:42-78 | Reset is idempotent and equals a fresh mount with no elapsed time. When `endTime > 0` it is not ended and the ring is hidden. |
| CountdownRuns.RingOfValid | src/components/timer/index.jsx:121 | For a valid timer with a positive duration, the ring is hidden iff untouched (`timeLeft == endTime`), ended iff at zero, and a progress arc iff strictly between. |
| CountdownRuns.RingClassNamesDistinct | src/components/timer/index.jsx:121 | The three class texts are pairwise different. |
| CountdownRuns.Step | src/components/timer/index.jsx:63-141 | One event is a button's click handler or one firing of the interval. Each keeps the props and preserves conservation and validity. A click leaves `isOn` true exactly for Start. |
| CountdownRuns.Run | src/components/timer/index.jsx:63-106 | No sequence of clicks and ticks changes the title or `endTime`. |
| CountdownRuns.RunConserves | src/components/timer/index.jsx:42-106 | `timeLeft + timeElapsed == endTime` holds after every sequence of clicks and ticks from a state where it holds. |
| CountdownRuns.RunStaysValid | src/components/timer/index.jsx:42-106 | A valid timer stays valid under every sequence of clicks and ticks. |
| CountdownRuns.MountedStaysValid | src/components/timer/index.jsx:16-106 | A timer mounted with `0 <= elapsedTime <= endTime` stays valid forever. |
| CountdownRuns.RunUntilDisarmed | src/components/timer/index.jsx:94-106 | Letting the interval run until its guard fails takes exactly `timeLeft` firings from a running timer with `timeLeft >= 0`, and ends it. From a disarmed timer it takes none. |

## Left out

- Rendering is not modelled: the SVG, CSS, the title text and the " left" suffix are presentational. Only the ring's class choice is modelled.
- `setInterval`/`clearInterval` timing, React's effect scheduling and the unmount cleanup are not modelled. A tick is one atomic guarded step, for the reason given above.
- `progress` and `strokeDashoffset` are not modelled. They use floating-point division, which divides by zero when `endTime == 0`.
- `PropTypes` checks are not modelled. They belong to a foreign library and only print warnings.
- Props are integers. A fractional JavaScript number for `endTime` or `elapsedTime` is not modelled.
- All values are exact, unbounded integers. JavaScript numbers are doubles, exact only below 2^53. Beyond that `prevTime - 1` can round back to `prevTime`, and `String(n)` switches to exponent notation from 1e21. The tick, countdown and formatting contracts do not cover such magnitudes.
- Props are fixed after mount. A parent may re-render the component with a new `endTime`. The guard then runs again and may throw mid-life, and because the state seeds are not re-applied, conservation fails until the next reset. The model does not cover this.

=== FILE: countdown.dfy ===
/**
 * The state machine of the Timer component: the `endTime` guard and the
 * `useState` seeds, the three button actions, the guarded once-a-second
 * tick, `timerEnded`, and the class chosen for the progress ring.
 *
 * The tick's effect depends on `[isOn, timeLeft]`, so the interval is
 * re-armed after every change of `timeLeft` and its guard is re-read before
 * each firing; a tick is therefore one atomic guarded step.
 */
module Countdown {
  import opened Wrappers

  /** The largest accepted countdown, 59:59. */
  const MaxEndTime: int := 3599

  /** The three pieces of React state. */
  datatype TimerState = TimerState(timeLeft: int, timeElapsed: int, isOn: bool)

  /**
   * A mounted timer: its props and its state. The model keeps the props fixed
   * after mount; a parent re-rendering with a new `endTime` is not modelled.
   */
  datatype Timer = Timer(title: string, endTime: int, state: TimerState)

  /** The one configuration error: the countdown does not fit in an hour. */
  datatype TimerError = EndTimeTooLong(endTime: int)

  /** The sum of remaining and elapsed time is the configured duration. */
  predicate Conserved(t: Timer)
  {
    t.state.timeLeft + t.state.timeElapsed == t.endTime
  }

  /** Remaining time lies between zero and the duration (so, if conserved, does elapsed time). */
  predicate InRange(t: Timer)
  {
    0 <= t.state.timeLeft <= t.endTime
  }

  /** The state the component should keep throughout its life. */
  predicate Valid(t: Timer)
  {
    Conserved(t) && InRange(t)
  }

  /** `timerEnded`: on a conserved timer, exactly when the whole duration has elapsed. */
  predicate Ended(t: Timer)
    ensures Conserved(t) ==> (Ended(t) <==> t.state.timeElapsed == t.endTime)
  {
    t.state.timeLeft == 0
  }

  /**
   * The effect's guard: an interval is armed only while on and not ended; a
   * running timer with no negative time left is armed exactly until it ends.
   */
  predicate TickArmed(t: Timer)
    ensures TickArmed(t) ==> t.state.isOn && !Ended(t)
    ensures t.state.isOn && t.state.timeLeft >= 0 ==> (TickArmed(t) <==> !Ended(t))
  {
    t.state.isOn && t.state.timeLeft > 0
  }

  /** Mounting the component; `elapsedTime` defaults to 0, as in the component's parameter list, and is not checked. */
  function Create(title: string, endTime: int, elapsedTime: int := 0): (r: Result<Timer, TimerError>)
    ensures r.Failure? <==> endTime > MaxEndTime
    ensures r.Failure? ==> r.error == EndTimeTooLong(endTime)
    ensures r.Success? ==> r.value.title == title && r.value.endTime == endTime
    ensures r.Success? ==> Conserved(r.value) && r.value.state.timeElapsed == elapsedTime
    ensures r.Success? ==> !r.value.state.isOn && !TickArmed(r.value)
    ensures r.Success? && 0 <= elapsedTime <= endTime ==> Valid(r.value)
  {
    if endTime > MaxEndTime then Failure(EndTimeTooLong(endTime))
    else Success(Timer(title, endTime, TimerState(endTime - elapsedTime, elapsedTime, false)))
  }

  /** `startTimer`. */
  function Start(t: Timer): (r: Timer)
    ensures r.state.isOn
    ensures r.title == t.title && r.endTime == t.endTime
    ensures r.state.timeLeft == t.state.timeLeft && r.state.timeElapsed == t.state.timeElapsed
    ensures TickArmed(r) <==> t.state.timeLeft > 0
  {
    t.(state := t.state.(isOn := true))
  }

  /** `pauseTimer`. */
  function Pause(t: Timer): (r: Timer)
    ensures !r.state.isOn && !TickArmed(r)
    ensures r.title == t.title && r.endTime == t.endTime
    ensures r.state.timeLeft == t.state.timeLeft && r.state.timeElapsed == t.state.timeElapsed
  {
    t.(state := t.state.(isOn := false))
  }

  /** `resetTimer`: back to a stopped timer with the full duration left. */
  function Reset(t: Timer): (r: Timer)
    ensures !r.state.isOn && !TickArmed(r)
    ensures r.title == t.title && r.endTime == t.endTime
    ensures r.state.timeElapsed == 0 && Conserved(r)
    ensures Ended(r) <==> t.endTime == 0
    ensures t.endTime >= 0 ==> Valid(r)
  {
    t.(state := TimerState(t.endTime, 0, false))
  }

  /** `Math.max` of two integers. */
  function Max(a: int, b: int): (r: int)
    ensures r >= a && r >= b
    ensures r == a || r == b
  {
    if a < b then b else a
  }

  /** One firing of the interval, under the effect's guard. */
  function Tick(t: Timer): (r: Timer)
    ensures r != t <==> TickArmed(t)
    ensures TickArmed(t) ==> r.state.timeLeft == t.state.timeLeft - 1
    ensures TickArmed(t) ==> r.state.timeElapsed == t.state.timeElapsed + 1
    ensures r.title == t.title && r.endTime == t.endTime && r.state.isOn == t.state.isOn
    ensures Conserved(t) ==> Conserved(r)
    ensures InRange(t) ==> InRange(r)
    ensures t.state.timeLeft >= 0 ==> r.state.timeLeft >= 0
    ensures Ended(t) ==> r == t
  {
    if !t.state.isOn || t.state.timeLeft <= 0 then t
    else t.(state := t.state.(timeLeft := Max(t.state.timeLeft - 1, 0),
                              timeElapsed := t.state.timeElapsed + 1))
  }

  /** The class of the foreground ring. */
  datatype Ring = EndAnimation | Hidden | ProgressCircle

  /** The class chosen for the foreground ring. */
  function RingOf(t: Timer): (r: Ring)
    ensures r == EndAnimation <==> Ended(t)
    ensures r == Hidden <==> !Ended(t) && t.state.timeElapsed == 0
  {
    if Ended(t) then EndAnimation
    else if t.state.timeElapsed == 0 then Hidden
    else ProgressCircle
  }

  /** The class attribute text the ring carries: one distinct text per choice. */
  function ClassName(ring: Ring): (r: string)
    ensures r == "end-animation" <==> ring == EndAnimation
    ensures r == "hidden" <==> ring == Hidden
    ensures r == "progressCircle" <==> ring == ProgressCircle
  {
    match ring
    case EndAnimation => "end-animation"
    case Hidden => "hidden"
    case ProgressCircle => "progressCircle"
  }
}

=== FILE: countdown_runs.dfy ===
/**
 * What happens to a Timer over many steps: repeated ticks of the interval,
 * and arbitrary interleavings of button clicks and ticks.
 */
module CountdownRuns {
  import opened Wrappers
  import opened Countdown
  import TimeFormat

  /** `n` consecutive firings of the interval. */
  function Ticks(t: Timer, n: nat): (r: Timer)
    ensures r.title == t.title && r.endTime == t.endTime && r.state.isOn == t.state.isOn
    ensures Conserved(t) ==> Conserved(r)
    ensures r.state.timeLeft <= t.state.timeLeft
    decreases n
  {
    if n == 0 then t else Ticks(Tick(t), n - 1)
  }

  /** How many of the first `n` firings actually changed the state. */
  function FiredCount(t: Timer, n: nat): (c: nat)
    ensures c <= n
    ensures Ticks(t, n).state.timeElapsed == t.state.timeElapsed + c
    ensures Ticks(t, n).state.timeLeft == t.state.timeLeft - c
    decreases n
  {
    if n == 0 then 0
    else (if TickArmed(t) then 1 else 0) + FiredCount(Tick(t), n - 1)
  }

  lemma {:induction false} TicksThenOneMore(t: Timer, n: nat)
    ensures Ticks(t, n + 1) == Tick(Ticks(t, n))
    decreases n
  {
    if n > 0 {
      TicksThenOneMore(Tick(t), n - 1);
    }
  }

  /** While time is left, each of the first `k <= timeLeft` firings moves one second across. */
  lemma {:induction false} TicksCountDown(t: Timer, k: nat)
    requires t.state.isOn && k <= t.state.timeLeft
    ensures Ticks(t, k).state == TimerState(t.state.timeLeft - k, t.state.timeElapsed + k, true)
    ensures FiredCount(t, k) == k
    decreases k
  {
    if k > 0 {
      TicksCountDown(Tick(t), k - 1);
    }
  }

  /** Once the guard is false, ticking changes nothing, however long the page stays open. */
  lemma {:induction false} DisarmedIsAbsorbing(t: Timer, n: nat)
    requires !TickArmed(t)
    ensures Ticks(t, n) == t
    ensures FiredCount(t, n) == 0
    decreases n
  {
    if n > 0 {
      DisarmedIsAbsorbing(Tick(t), n - 1);
    }
  }

  /**
   * A running timer with `L >= 0` seconds left fires exactly `L` ticks and then
   * ends, with `L` more seconds elapsed; further ticks change nothing.
   */
  lemma CountdownRunsOut(t: Timer, n: nat)
    requires t.state.isOn && t.state.timeLeft >= 0
    ensures var done := Ticks(t, t.state.timeLeft);
      && done.state == TimerState(0, t.state.timeElapsed + t.state.timeLeft, true)
      && Ended(done) && RingOf(done) == EndAnimation
      && (n >= t.state.timeLeft ==> Ticks(t, n) == done)
    ensures FiredCount(t, n) == if n <= t.state.timeLeft then n else t.state.timeLeft
  {
    var L: nat := t.state.timeLeft;
    TicksCountDown(t, L);
    if n >= L {
      TicksSplit(t, L, n - L);
      DisarmedIsAbsorbing(Ticks(t, L), n - L);
    } else {
      TicksCountDown(t, n);
    }
  }

  lemma {:induction false} TicksSplit(t: Timer, a: nat, b: nat)
    ensures Ticks(t, a + b) == Ticks(Ticks(t, a), b)
    decreases a
  {
    if a > 0 {
      TicksSplit(Tick(t), a - 1, b);
    }
  }

  /** Pausing stops the clock: no number of interval firings moves a paused timer. */
  lemma PausedStaysPut(t: Timer, n: nat)
    ensures Ticks(Pause(t), n) == Pause(t)
  {
    DisarmedIsAbsorbing(Pause(t), n);
  }

  /**
   * An `elapsedTime` larger than `endTime` is accepted at mount and leaves a
   * negative `timeLeft`: starting such a timer never ticks and never ends.
   */
  lemma OverlongElapsedNeverEnds(title: string, endTime: int, elapsedTime: int, n: nat)
    requires endTime <= MaxEndTime && elapsedTime > endTime
    ensures Create(title, endTime, elapsedTime).Success?
    ensures var t := Start(Create(title, endTime, elapsedTime).value);
      t.state.timeLeft < 0 && Ticks(t, n) == t && !Ended(Ticks(t, n))
  {
    DisarmedIsAbsorbing(Start(Create(title, endTime, elapsedTime).value), n);
  }

  /**
   * Reset recovers a timer mounted with `elapsedTime > endTime`: started
   * afterwards, it counts the full duration down to zero like any other.
   */
  lemma ResetRecoversOverlong(title: string, endTime: int, elapsedTime: int)
    requires 0 <= endTime <= MaxEndTime && elapsedTime > endTime
    ensures Create(title, endTime, elapsedTime).Success?
    ensures var t := Create(title, endTime, elapsedTime).value;
      && t.state.timeLeft < 0
      && Ticks(Start(Reset(t)), endTime).state == TimerState(0, endTime, true)
      && Ended(Ticks(Start(Reset(t)), endTime))
  {
    TicksCountDown(Start(Reset(Create(title, endTime, elapsedTime).value)), endTime);
  }

  /** Freshly mounted with no elapsed time and started, `n <= endTime` ticks leave `endTime - n`. */
  lemma StartedFromMount(title: string, endTime: int, n: nat)
    requires 0 <= endTime <= MaxEndTime && n <= endTime
    ensures Create(title, endTime, 0).Success?
    ensures Ticks(Start(Create(title, endTime, 0).value), n).state == TimerState(endTime - n, n, true)
  {
    TicksCountDown(Start(Create(title, endTime, 0).value), n);
  }

  /** The ten-second "Break" timer: started and ticked ten times, it shows 00:10 and 00:00 and has ended. */
  lemma BreakScenario()
    ensures Create("Break", 10).Success?
    ensures var done := Ticks(Start(Create("Break", 10).value), 10);
      && done.state == TimerState(0, 10, true) && Ended(done)
      && TimeFormat.FormatTime(done.state.timeElapsed) == "00:10"
      && TimeFormat.FormatTime(done.state.timeLeft) == "00:00"
  {
    StartedFromMount("Break", 10, 10);
    TimeFormat.KnownReadouts();
  }

  /** A 3600-second countdown is refused at mount. */
  lemma HourIsRefused(title: string, elapsedTime: int)
    ensures Create(title, 3600, elapsedTime) == Failure(EndTimeTooLong(3600))
  {
  }

  /** Start and pause are idempotent and only flip `isOn`; pausing a started timer is pausing it. */
  lemma StartPauseIdempotent(t: Timer)
    ensures Start(Start(t)) == Start(t) && Pause(Pause(t)) == Pause(t)
    ensures Pause(Start(t)) == Pause(t) && Start(Pause(t)) == Start(t)
  {
  }

  /** Reset is idempotent, and it puts the timer exactly where a fresh mount with the default elapsed time would. */
  lemma ResetIsFreshMount(t: Timer)
    ensures Reset(Reset(t)) == Reset(t)
    ensures t.endTime <= MaxEndTime ==> Create(t.title, t.endTime) == Success(Reset(t))
    ensures t.endTime > 0 ==> !Ended(Reset(t)) && RingOf(Reset(t)) == Hidden
  {
  }

  /**
   * On a valid timer with a positive duration the ring tells the phase apart:
   * hidden while untouched, ended at zero, a progress arc in between.
   */
  lemma RingOfValid(t: Timer)
    requires Valid(t) && t.endTime > 0
    ensures RingOf(t) == Hidden <==> t.state.timeLeft == t.endTime
    ensures RingOf(t) == EndAnimation <==> t.state.timeLeft == 0
    ensures RingOf(t) == ProgressCircle <==> 0 < t.state.timeLeft < t.endTime
  {
  }

  /** The three ring classes are distinct texts. */
  lemma RingClassNamesDistinct(a: Ring, b: Ring)
    ensures ClassName(a) == ClassName(b) <==> a == b
  {
  }

  /** Everything that can happen to a mounted timer. */
  datatype Event = StartClicked | PauseClicked | ResetClicked | IntervalFired

  /** One event: a button's click handler, or one firing of the interval. */
  function Step(t: Timer, e: Event): (r: Timer)
    ensures r.title == t.title && r.endTime == t.endTime
    ensures Conserved(t) ==> Conserved(r)
    ensures Valid(t) ==> Valid(r)
    ensures e == IntervalFired || r.state.isOn == (e == StartClicked)
  {
    match e
    case StartClicked => Start(t)
    case PauseClicked => Pause(t)
    case ResetClicked => Reset(t)
    case IntervalFired => Tick(t)
  }

  /** The timer after a sequence of events, in order. */
  function Run(t: Timer, events: seq<Event>): (r: Timer)
    ensures r.title == t.title && r.endTime == t.endTime
    decreases |events|
  {
    if |events| == 0 then t else Run(Step(t, events[0]), events[1..])
  }

  /** Conservation: `timeLeft + timeElapsed == endTime` survives any sequence of events. */
  lemma {:induction false} RunConserves(t: Timer, events: seq<Event>)
    requires Conserved(t)
    ensures Conserved(Run(t, events))
    decreases |events|
  {
    if |events| > 0 {
      RunConserves(Step(t, events[0]), events[1..]);
    }
  }

  /**
   * A valid timer stays valid: remaining and elapsed time both stay within
   * `0..endTime` whatever the user clicks.
   */
  lemma {:induction false} RunStaysValid(t: Timer, events: seq<Event>)
    requires Valid(t)
    ensures Valid(Run(t, events))
    decreases |events|
  {
    if |events| > 0 {
      RunStaysValid(Step(t, events[0]), events[1..]);
    }
  }

  /** Any timer mounted with `0 <= elapsedTime <= endTime` stays valid under every sequence of events. */
  lemma MountedStaysValid(title: string, endTime: int, elapsedTime: int, events: seq<Event>)
    requires endTime <= MaxEndTime && 0 <= elapsedTime <= endTime
    ensures Create(title, endTime, elapsedTime).Success?
    ensures Valid(Run(Create(title, endTime, elapsedTime).value, events))
  {
    RunStaysValid(Create(title, endTime, elapsedTime).value, events);
  }

  /** Lets the interval fire until its guard fails; reports how many firings changed the state. */
  method RunUntilDisarmed(t: Timer) returns (fired: nat, final: Timer)
    ensures final == Ticks(t, fired) && !TickArmed(final)
    ensures final.state.timeLeft == t.state.timeLeft - fired
    ensures final.state.timeElapsed == t.state.timeElapsed + fired
    ensures t.state.isOn && t.state.timeLeft >= 0 ==> fired == t.state.timeLeft && Ended(final)
    ensures !TickArmed(t) ==> fired == 0 && final == t
  {
    fired, final := 0, t;
    while TickArmed(final)
      invariant final == Ticks(t, fired)
      invariant final.state.isOn == t.state.isOn
      invariant final.state.timeLeft == t.state.timeLeft - fired
      invariant final.state.timeElapsed == t.state.timeElapsed + fired
      invariant t.state.timeLeft >= 0 ==> final.state.timeLeft >= 0
      invariant !TickArmed(t) ==> fired == 0
      decreases final.state.timeLeft
    {
      TicksThenOneMore(t, fired);
      final := Tick(final);
      fired := fired + 1;
    }
  }
}

=== FILE: time_format.dfy ===
/**
 * The `formatTime` helper of the Timer component: an integer number of
 * seconds rendered as `MM:SS`, built from JavaScript's `String(n)`,
 * `String.prototype.padStart`, `Math.floor` and the `%` operator.
 * `ParseClock` reads such a text back, and the lemmas below show the two
 * are inverse on 0..5999.
 */
module TimeFormat {
  import opened Wrappers

  predicate IsDigit(c: char) { '0' <= c <= '9' }

  predicate AllDigits(s: string) { forall i :: 0 <= i < |s| ==> IsDigit(s[i]) }

  function DigitValue(c: char): (d: int)
    requires IsDigit(c)
    ensures 0 <= d < 10
  {
    c as int - '0' as int
  }

  function DigitChar(d: int): (c: char)
    requires 0 <= d < 10
    ensures IsDigit(c) && DigitValue(c) == d
  {
    ('0' as int + d) as char
  }

  /** The number a decimal digit string denotes, most significant digit first; "" reads as 0. */
  function ValueOf(s: string): (v: nat)
    requires AllDigits(s)
  {
    if |s| == 0 then 0 else ValueOf(s[..|s| - 1]) * 10 + DigitValue(s[|s| - 1])
  }

  /** Decimal digits of a non-negative integer, as `String(n)` writes them. */
  function NatDigits(n: nat): (r: string)
    ensures AllDigits(r) && ValueOf(r) == n
    ensures 1 <= |r|
    ensures r[0] == '0' ==> n == 0
    ensures n < 10 <==> |r| == 1
    ensures n < 100 <==> |r| <= 2
  {
    if n < 10 then [DigitChar(n)]
    else
      var prefix := NatDigits(n / 10);
      var r := prefix + [DigitChar(n % 10)];
      assert r[..|r| - 1] == prefix;
      r
  }

  /** `String(n)` for an integral JavaScript number: an optional minus sign and the digits of |n|. */
  function JsString(n: int): (r: string)
    ensures 1 <= |r|
    ensures n >= 0 ==> AllDigits(r) && ValueOf(r) == n
    ensures n >= 0 && r[0] == '0' ==> n == 0
    ensures n < 0 ==> 2 <= |r| && r[0] == '-' && AllDigits(r[1..]) && ValueOf(r[1..]) == -n
    ensures n < 0 ==> r[1] != '0'
  {
    if n < 0 then
      var r := "-" + NatDigits(-n);
      assert r[1..] == NatDigits(-n);
      r
    else NatDigits(n)
  }

  /** `s.padStart(width, fill)` with a one-character filler. */
  function PadStart(s: string, width: nat, fill: char): (r: string)
    ensures width <= |s| ==> r == s
    ensures |s| < width ==> |r| == width && r[width - |s|..] == s
    ensures forall i :: 0 <= i < |r| - |s| ==> r[i] == fill
  {
    if width <= |s| then s else seq(width - |s|, _ => fill) + s
  }

  /** `Math.floor(t / d)` for a positive divisor (Dafny's `/` already rounds down when d > 0). */
  function FloorDiv(t: int, d: int): (q: int)
    requires d > 0
    ensures q * d <= t < q * d + d
  {
    t / d
  }

  /** JavaScript's `t % d`: the remainder takes the sign of the dividend. */
  function TruncRem(t: int, d: int): (r: int)
    requires d > 0
    ensures t >= 0 ==> 0 <= r < d
    ensures t < 0 ==> -d < r <= 0
    ensures (t - r) % d == 0
  {
    if t >= 0 then
      RemainderLeavesMultiple(t, d);
      t % d
    else
      NegatedRemainder(t, d);
      -((-t) % d)
  }

  lemma RemainderLeavesMultiple(t: int, d: int)
    requires d > 0
    ensures (t - t % d) % d == 0
  {
    assert t - t % d == d * (t / d);
    MultipleHasNoRemainder(d, t / d);
  }

  lemma NegatedRemainder(t: int, d: int)
    requires t < 0 && d > 0
    ensures (t + (-t) % d) % d == 0
  {
    var q := (-t) / d;
    assert -t == d * q + (-t) % d;
    assert t + (-t) % d == d * -q;
    MultipleHasNoRemainder(d, -q);
  }

  lemma MultipleHasNoRemainder(d: int, k: int)
    requires d > 0
    ensures (d * k) % d == 0
  {
    var p, m := (d * k) / d, (d * k) % d;
    assert d * (k - p) == m;
    if k - p >= 1 {
      AtLeastOneMultiple(d, k - p);
    } else if k - p <= -1 {
      AtLeastOneMultiple(d, p - k);
    }
  }

  lemma AtLeastOneMultiple(d: int, j: int)
    requires d > 0 && j >= 1
    ensures d * j >= d
  {
  }

  /** `String(n).padStart(2, '0')`: one field of the clock text. */
  function Field(n: int): (r: string)
    ensures 2 <= |r|
    ensures 0 <= n < 100 ==> |r| == 2
    ensures n >= 100 ==> |r| > 2
    ensures n >= 0 ==> AllDigits(r) && ValueOf(r) == n
    ensures n >= 100 ==> r[0] != '0'
    ensures n < 0 ==> r[0] == '-' && AllDigits(r[1..]) && ValueOf(r[1..]) == -n && r[1] != '0'
  {
    var text := JsString(n);
    var r := PadStart(text, 2, '0');
    if 0 <= n < 10 then
      assert r == ['0'] + text && r[..1] == ['0'] && r[..1][..0] == [];
      r
    else r
  }

  /** `formatTime(time)`: minutes and seconds fields joined by a colon. */
  function FormatTime(t: int): (r: string)
    ensures 0 <= t < 6000 ==> IsClockText(r)
    ensures 0 <= t < 6000 ==> ValueOf(r[3..]) < 60 && ValueOf(r[..2]) * 60 + ValueOf(r[3..]) == t
    ensures 0 <= t <= 3599 ==> ValueOf(r[..2]) < 60
  {
    var minutes := Field(FloorDiv(t, 60));
    var seconds := Field(TruncRem(t, 60));
    var r := minutes + ":" + seconds;
    if 0 <= t < 6000 then
      FieldsOfDisplayable(t);
      ClockJoin(minutes, seconds);
      r
    else r
  }

  lemma ClockJoin(minutes: string, seconds: string)
    requires |minutes| == 2 && AllDigits(minutes) && |seconds| == 2 && AllDigits(seconds)
    ensures var r := minutes + ":" + seconds;
      IsClockText(r) && r[..2] == minutes && r[3..] == seconds
  {
    var r := minutes + ":" + seconds;
    assert r[..2] == minutes && r[3..] == seconds;
  }

  lemma FieldsOfDisplayable(t: int)
    requires 0 <= t < 6000
    ensures var minutes, seconds := Field(FloorDiv(t, 60)), Field(TruncRem(t, 60));
      && |minutes| == 2 && AllDigits(minutes) && |seconds| == 2 && AllDigits(seconds)
      && ValueOf(seconds) < 60 && ValueOf(minutes) * 60 + ValueOf(seconds) == t
      && (t <= 3599 ==> ValueOf(minutes) < 60)
  {
    var q, rem := FloorDiv(t, 60), TruncRem(t, 60);
    assert q == t / 60 && rem == t % 60;
    assert 0 <= q < 100 && 0 <= rem < 60;
  }

  /** Exactly five characters: two digits, a colon, two digits. */
  predicate IsClockText(s: string)
  {
    && |s| == 5
    && s[2] == ':'
    && AllDigits(s[..2])
    && AllDigits(s[3..])
  }

  /** Reads an `MM:SS` text back to a number of seconds; None unless the shape fits and SS < 60. */
  function ParseClock(s: string): (r: Option<int>)
  {
    if IsClockText(s) && ValueOf(s[3..]) < 60 then Some(ValueOf(s[..2]) * 60 + ValueOf(s[3..]))
    else None
  }

  /** Every two-digit field is the padded text of the number it denotes. */
  lemma FieldOfValue(p: string)
    requires |p| == 2 && AllDigits(p)
    ensures Field(ValueOf(p)) == p
  {
    TwoDigitValue(p);
    var f := Field(ValueOf(p));
    TwoDigitValue(f);
    assert DigitValue(f[0]) == DigitValue(p[0]) && DigitValue(f[1]) == DigitValue(p[1]);
    assert f[0] == p[0] && f[1] == p[1];
  }

  lemma TwoDigitValue(p: string)
    requires |p| == 2 && AllDigits(p)
    ensures ValueOf(p) == DigitValue(p[0]) * 10 + DigitValue(p[1])
  {
    assert p[..1] == [p[0]];
    assert p[..1][..0] == [];
    assert ValueOf(p[..1]) == DigitValue(p[0]);
  }

  /** Round trip one way: formatting a displayable time and reading it back gives the time. */
  lemma FormatThenParse(t: int)
    requires 0 <= t < 6000
    ensures ParseClock(FormatTime(t)) == Some(t)
  {
  }

  /** Round trip the other way: every readable clock text is exactly what formatTime produces. */
  lemma ParseThenFormat(s: string)
    requires ParseClock(s).Some?
    ensures FormatTime(ParseClock(s).value) == s
  {
    var m, sec := ValueOf(s[..2]), ValueOf(s[3..]);
    var t := m * 60 + sec;
    assert FloorDiv(t, 60) == m;
    assert TruncRem(t, 60) == sec;
    Joined(t, m, sec);
    FieldOfValue(s[..2]);
    FieldOfValue(s[3..]);
    assert s == s[..2] + ":" + s[3..];
  }

  /** Readouts for a few representative times. */
  lemma KnownReadouts()
    ensures FormatTime(0) == "00:00"
    ensures FormatTime(10) == "00:10"
    ensures FormatTime(65) == "01:05"
    ensures FormatTime(3599) == "59:59"
  {
    ReadsZero();
    ReadsTen();
    ReadsSixtyFive();
    ReadsLast();
  }

  /**
   * Outside 0..5999 the text is not `MM:SS`: a negative time keeps JavaScript's
   * signs in both fields, and 100 minutes or more widens the first field.
   */
  lemma OutOfRangeReadouts()
    ensures FormatTime(-5) == "-1:-5"
    ensures FormatTime(-65) == "-2:-5"
    ensures FormatTime(6000) == "100:00"
  {
    ReadsMinusFive();
    ReadsMinusSixtyFive();
    ReadsHundredMinutes();
  }

  /** The clock text is the minutes field, a colon and the seconds field. */
  lemma Joined(t: int, m: int, sec: int)
    ensures FloorDiv(t, 60) == m && TruncRem(t, 60) == sec ==> FormatTime(t) == Field(m) + ":" + Field(sec)
  {
  }

  lemma ReadsZero()
    ensures FormatTime(0) == "00:00"
  {
    Joined(0, 0, 0);
    assert Field(0) == "00";
  }

  lemma ReadsTen()
    ensures FormatTime(10) == "00:10"
  {
    Joined(10, 0, 10);
    assert Field(0) == "00";
    assert Field(10) == "10" by { assert NatDigits(10) == NatDigits(1) + "0"; }
  }

  lemma ReadsSixtyFive()
    ensures FormatTime(65) == "01:05"
  {
    Joined(65, 1, 5);
    assert Field(1) == "01" && Field(5) == "05";
  }

  lemma ReadsLast()
    ensures FormatTime(3599) == "59:59"
  {
    Joined(3599, 59, 59);
    assert Field(59) == "59" by { assert NatDigits(59) == NatDigits(5) + "9"; }
  }

  lemma ReadsMinusFive()
    ensures FormatTime(-5) == "-1:-5"
  {
    Joined(-5, -1, -5);
    assert Field(-1) == "-1" && Field(-5) == "-5";
  }

  lemma ReadsMinusSixtyFive()
    ensures FormatTime(-65) == "-2:-5"
  {
    Joined(-65, -2, -5);
    assert Field(-2) == "-2" && Field(-5) == "-5";
  }

  lemma ReadsHundredMinutes()
    ensures FormatTime(6000) == "100:00"
  {
    Joined(6000, 100, 0);
    HundredText();
    assert Field(0) == "00";
  }

  lemma HundredText()
    ensures Field(100) == "100"
  {
    assert NatDigits(10) == NatDigits(1) + "0";
    assert NatDigits(100) == NatDigits(10) + "0";
  }
}

=== FILE: wrappers.dfy ===
/** Option and Result datatypes used by the timer model. */
module Wrappers {

  /** A value that may be missing. */
  datatype Option<+T> = None | Some(value: T)

  /** Either a successful value or the error that stopped the computation. */
  datatype Result<+R, +E> = Success(value: R) | Failure(error: E)
}
